=== FILE: README.md ===
# A verified model of ftp-srv's jailed file system

ftp-srv serves each FTP session through a `FileSystem` object (`src/fs.js`).
The object holds a jail `root`, a working directory `cwd` inside it, and a
connection. Every client path goes through two steps:

- `_normalize` turns backslashes into slashes, collapses doubled
  separators and runs Node's `path.normalize`;
- `_resolvePath` joins the result under `cwd` and writes `root` in front.

The resolved path is then handed to Node's `fs` module. This path logic is
the server's security boundary. The model states it in Dafny and proves it:

- `posix_path.dfy` (module `PosixPath`) models the part of Node's POSIX
  `path` module the class uses: `normalize`, two-argument `join` and
  `format({root, base})`. A path is cut into segments at `/`. The segments
  are folded onto a stack: `""` and `"."` vanish, and `..` pops (a leading
  `..` is dropped in an absolute path and kept in a relative one). The
  stack is written back with a leading `/` for an absolute path and a
  single trailing `/` when the input ended in one. The empty path gives
  `.`. `Walk` is the chain of directory names the operating system
  follows for a path.
- `jail.dfy` (module `Jail`) models `_normalize` and `_resolvePath` as
  functions, with the jail theorems.
- `storage.dfy` (module `Storage`) is an abstract stand-in for the host
  file system behind `fs.*`. It maps the `Walk` of a path to a file
  (bytes and mode) or a directory (mode, and its names in `readdir` order).
  It also defines the error kinds and `Result`.
- `filesystem.dfy` (module `Fs`) is the class `FileSystem`. Its fields are
  `root`, `cwd` and `storage`, and its constructor and methods mirror the
  source's. Each method resolves its path and takes the same branches as
  the source. State changes go through `modifies`: `chdir` changes `cwd`,
  and `write`, `delete`, `mkdir`, `rename` and `chmod` change `storage`.
  The module also proves `list`'s listing properties and the outcome of a
  few operation sequences (mkdir then chdir, write then read, delete then get).

Storage is keyed by the walked directory chain, not by the path string.
With the default root `/`, the resolved path of `a` is `//a`, and the
operating system reaches the same entry for `//a` and `/a`. Keying by the
string would make these two different entries.

Error kinds:

| kind | meaning |
|---|---|
| `NotFound` | the path does not exist (`ENOENT`) |
| `NotADirectory` | `chdir` onto a file, `readdir` of a file, creating an entry (by `mkdir`, a write or a rename) whose parent is a file, and renaming a directory onto a file (`ENOTDIR`) |
| `CannotReadDirectory` | `read` of a directory |
| `StorageError` | any other backend failure, passed through unchanged |

Two behaviours follow the code where a description of it could mislead:

- `_normalize` is sometimes described as removing trailing slashes. The
  `path.normalize` it calls keeps a single trailing `/` (`"a/b/"` stays
  `"a/b/"`), and the model follows `path.normalize`.
- The fallback to `'/'` in `chdir` (`src/fs.js:70`) is never taken. The
  joined base is never empty, so the resolved path always extends past
  `root` (`Jail.Resolve`).

## Model

| member | source | states |
|---|---|---|
| `PosixPath.Normalize` | src/fs.js:21-25 | Node's `normalize` never returns "", maps "" to ".", and keeps a leading and a trailing '/' (the full shape is `PosixPath.NormalizeShape`) |
| `PosixPath.Join` | src/fs.js:31 | Node's two-argument `join` never returns "", and joining onto an absolute directory gives an absolute path |
| `PosixPath.Format` | src/fs.js:33 | `format({root, base})` is `root` followed by `base`, with no separator inserted |
| `PosixPath.NormalizeShape` | src/fs.js:21-25 | Node's `normalize` never returns "", maps "" to ".", keeps absoluteness, leaves no "//", no "." segment (except "." / "./" themselves) and, when absolute, no ".." segment |
| `PosixPath.NormalizeIdempotent` | src/fs.js:21-25 | Node's `normalize` is idempotent |
| `PosixPath.StackJoinAbsolute` | src/fs.js:31 | joining a normalized absolute path onto an absolute directory stacks its names on the directory's names |
| `PosixPath.WalkUnder` | src/fs.js:33 | writing any prefix in front of a normalized absolute path walks to the prefix's chain followed by the path's names |
| `Jail.Normalize` | src/fs.js:20-26 | `_normalize` never returns "", maps "" to ".", leaves no backslash, and gives an absolute path for a request starting with '/' or '\' (the full shape is `Jail.NormalizeFacts`) |
| `Jail.Resolve` | src/fs.js:28-34 | `_resolvePath` is `root` followed by a non-empty base, and that base starts with '/' when `cwd` is absolute (the jail theorems are `Jail.JailSafety` and `Jail.JailWalk`) |
| `Jail.RelativeCwdSibling` | src/fs.js:28-34 | a working directory option without a leading '/' is written straight after the root: cwd "foo" under root "/srv" resolves "x" to "/srvfoo/x", outside the root |
| `Jail.NormalizeFacts` | src/fs.js:20-26 | after `_normalize`: "" gives "."; never empty; no backslash; no "//"; no "." segment except in "." and "./"; no ".." segment when absolute; absolute exactly when the request starts with '/' or '\' |
| `Jail.NormalizeIdempotent` | src/fs.js:20-26 | `_normalize` is idempotent |
| `Jail.PlainNameNormalize` | src/fs.js:20-26 | a plain name (no separator, no backslash, not "." or "..") passes `_normalize` unchanged |
| `Jail.JailSafety` | src/fs.js:28-34 | with an absolute working directory, the resolved path is `root + base` where `base` is again absolute and free of "..", whatever the request |
| `Jail.JailWalk` | src/fs.js:28-34 | with an absolute working directory, the chain the operating system walks for the resolved path starts with the chain of `root`, followed by the names of `cwd + "/" + request` |
| `Jail.AbsoluteRequestUnderCwd` | src/fs.js:31 | a request starting with '/' or '\' is walked below `root` and then below `cwd`, not from the jail top |
| `Jail.AbsoluteRequestExample` | src/fs.js:31 | with cwd "/a", the request "/x" resolves to `root + "/a/x"` |
| `Jail.TraversalExample` | src/fs.js:28-34 | from cwd "/", `..\..\x\y` (such as `..\..\etc\passwd`) resolves to `root + "/x/y"`: the climb stops at the root |
| `Jail.DescendIntoName` | src/fs.js:63-72 | entering a plain name keeps the working directory confined and walks one name deeper |
| `Jail.ParentOfCwd` | src/fs.js:63-72 | going up with ".." drops the last name of a confined working directory, and stays at the top of the jail when there is none |
| `Jail.ListedNameReachable` | src/fs.js:46-51 | the path `list(".")` probes for a plain name and the path `get` resolves for that name reach the same entry |
| `Storage.StatAt` | src/fs.js:42 | backend `stat`: succeeds exactly on an existing entry, with its kind, size and mode; otherwise NotFound |
| `Storage.ReadDir` | src/fs.js:48 | backend `readdir`: a directory's names in its order; NotFound for a missing path, NotADirectory for a file |
| `Storage.OpenWrite` | src/fs.js:77 | opening succeeds exactly on an existing file or a new name in an existing directory, unless the operating system refuses it; 'w+' replaces the contents and 'a+' appends; an existing file keeps its mode, a new one gets 0o666 and is listed by its parent; nothing else changes |
| `Storage.RemoveDir` | src/fs.js:98 | backend `rmdir`: only an existing empty directory other than the top; it disappears, its parent's listing drops its name, nothing else changes |
| `Storage.Unlink` | src/fs.js:99 | backend `unlink`: only an existing file; it disappears, its parent's listing drops its name, nothing else changes; a missing path is NotFound |
| `Storage.MakeDir` | src/fs.js:105 | backend `mkdir`: only a new entry in an existing directory; it becomes an empty directory with mode 0o777, its parent lists it (once), nothing else changes; an existing path fails |
| `Storage.Rename` | src/fs.js:112 | backend `rename`: succeeds exactly when the source exists and either equals the target, or neither contains the other, the target's parent is a directory and any entry at the target may be replaced; then the whole subtree at the source is found under the target, the source is gone, the source's parent drops the source's name and the target's parent lists the target's name (one listing does both when they share a parent) with their other names and modes kept, entries outside both subtrees and their parents are untouched, and nothing else appears; a missing source is NotFound; renaming onto itself changes nothing |
| `Storage.Chmod` | src/fs.js:117 | backend `chmod`: the entry's mode changes, its kind and contents and every other entry stay |
| `Fs.FileSystem.constructor` | src/fs.js:11-18 | `cwd` and `root` are the `_normalize`d options (both default to "/"); an absolute cwd option gives a valid session |
| `Fs.FileSystem.ResolvePath` | src/fs.js:28-34 | the resolved path is `root` followed by the request joined under `cwd`; with an absolute working directory its walk starts with the walk of `root` |
| `Fs.FileSystem.CurrentDirectory` | src/fs.js:36-38 | returns `cwd`, which in a valid session is absolute and has no ".." segment |
| `Fs.FileSystem.Get` | src/fs.js:40-44 | the stat of the resolved path, carrying the requested name rather than the resolved path; NotFound when missing |
| `Fs.FileSystem.List` | src/fs.js:46-61 | a failed `readdir` of the resolved directory is passed on; otherwise the result is `Listing` of its names |
| `Fs.Listing` | src/fs.js:50-60 | `list` never returns more entries than the directory lists names (soundness, completeness and order are the lemmas below) |
| `Fs.StatEach` | src/fs.js:50-60 | probing each listed name with access, then stat, collects exactly `Listing` of the names |
| `Fs.ListingAppend` | src/fs.js:50-60 | the listing of a concatenation is the listing of each part in turn, so the directory's order is kept |
| `Fs.ListingSound` | src/fs.js:50-60 | every listed entry carries a listed name whose probed path exists, with that path's stat |
| `Fs.ListingComplete` | src/fs.js:50-60 | every listed name whose probed path exists appears in the result with its stat |
| `Fs.ListingAllPresent` | src/fs.js:50-60 | when every name still exists, nothing is dropped and the entries carry the names in order |
| `Fs.ListedEntriesFound` | src/fs.js:40-61 | an entry of `list(".")` with a plain name is found again by `get` of that name, with the same stat |
| `Fs.FileSystem.Chdir` | src/fs.js:63-73 | a missing target is NotFound and a non-directory is NotADirectory, both with `cwd` unchanged; on success `root + cwd` is the resolved path, `cwd` is the request joined under the old `cwd` and is returned; `root` and storage never change; a valid session stays valid |
| `Fs.FileSystem.Write` | src/fs.js:75-80 | 'w+' truncates and 'a+' appends, leaving a file at the path; when the open fails the error handler's `unlink` runs: a file that was already there is deleted, anything else is left as it was |
| `Fs.FileSystem.Read` | src/fs.js:82-92 | a file's contents; a directory is CannotReadDirectory, a missing path NotFound |
| `Fs.FileSystem.Delete` | src/fs.js:94-101 | a directory goes through `rmdir` and anything else through `unlink`; a missing path is NotFound with storage unchanged; on success exactly that entry is gone |
| `Fs.FileSystem.Mkdir` | src/fs.js:103-107 | the outcome of `mkdir` on the resolved path; on success the resolved path is returned and names a new empty directory |
| `Fs.FileSystem.Rename` | src/fs.js:109-113 | both paths are resolved and the backend's `rename` is applied (`Fs.Relocated`): on success the subtree at the source is found under the target, the source's parent drops the source's name, the target's parent lists the target's name, and entries outside both subtrees and their parents are untouched; a target whose parent is not a directory fails and changes nothing |
| `Fs.FileSystem.Chmod` | src/fs.js:115-118 | the mode of the resolved path changes, the set of entries does not; a missing path is NotFound |
| `Fs.MkdirThenChdir` | src/fs.js:63-73 | a directory just made can be entered: the new `cwd` is the request joined under the old one, and the session stays valid |
| `Fs.RefusedWriteThenGet` | src/fs.js:75-80 | a write whose open the operating system refuses fails; a file that was there is then gone for `get`, and otherwise storage is unchanged |
| `Fs.WriteThenRead` | src/fs.js:75-92 | after a successful write, a read returns the data written ('w+'), or the old contents followed by it ('a+') |
| `Fs.DeleteThenGet` | src/fs.js:94-101 | after a successful delete, `get` of the same path is NotFound |

## Left out

- Streams: `write` and `read` return Node streams (`src/fs.js:77`, `src/fs.js:89`). In the model, `Write` takes everything written as one byte sequence, and `Read` returns the file's contents.
- The `unlink` in `write`'s stream error handler (`src/fs.js:78`) is modelled for a failed open. Why the operating system refuses an open (permissions, no free descriptor) is not derived from storage; it is the input `refused`. A failure in the middle of writing (a full disk, say), which would delete the partly written file, is not modelled.
- `getUniqueName` (`src/fs.js:120-122`) draws a random UUID from a library. Randomness is not part of this model.
- The promise plumbing (`when`, `whenNode.liftAll`) and `_.set`'s mutation of the stat object are left out. Calls run one after another, and an entry is a value holding the stat and the name.
- The `connection` field is stored and never used.
- Concurrent calls within one session that race on `cwd` or on storage are not modelled.
- Operating-system semantics beyond the abstract map are not modelled: permission checks, whether a `chmod` mode is valid, symbolic links, ownership and timestamps. The process umask is not applied to new entries, so a new file reads 0o666 and a new directory 0o777 where a real system typically shows 0o644 and 0o755. A directory's `stat` size reads 0.
- The race in `list` between `readdir` and each probe is not modelled. The directory's names are kept apart from the map, so a listed name may be missing, but `access` and `stat` see the same storage.
- A working directory option without a leading '/' is accepted by the constructor and leaves the jail: `Jail.RelativeCwdSibling` shows the resulting sibling of the root. The jail theorems assume an absolute working directory (`Jail.Confined`).
- A relative `root` is resolved by the operating system against the process's working directory. `KeyOf` reads a relative path from `/`, and `Fs.ListedEntriesFound` assumes an absolute root.
- A path that runs through a file (`report.txt/x`) is NotFound in the model; the operating system reports `ENOTDIR` for it.
- A resolved path ending in `/` is keyed as if the `/` were absent. On a real system such a path must name a directory, so `get`, `read`, `delete` or `write` of a file, `write` of a new name, and `rename` of a file, each with a trailing `/`, fail (`ENOTDIR` or `EISDIR`) where the model succeeds. For `write` of a new name, the input `refused` can stand for this failure; the model does not derive it from the path.
- Every backend failure other than `ENOENT` and `ENOTDIR` is merged into `StorageError`.
- Fs.FileSystem.Write: the stream errors only when it is opened; later write errors are not modelled.
- Fs.ListedEntriesFound: only plain names are covered. A listed name that contains a backslash is turned into a path by `_normalize` and is not found again by `get`.

=== FILE: filesystem.dfy ===
/**
 * The jailed file system one FTP session works through: a root the
 * session cannot leave, a working directory inside it, and the storage
 * its resolved paths reach. Every operation resolves the client's path
 * with `_resolvePath` and hands the result to the storage backend.
 */
module Fs {
  import PosixPath
  import Jail
  import opened Storage

  /** A directory entry as `get` and `list` report it: the stat, named as the client asked. */
  datatype FileEntry = FileEntry(stat: Stat, name: string)

  /** The key the storage finds a resolved path under. */
  function KeyOf(path: string): (k: Key)
  {
    PosixPath.Walk(path)
  }

  /** The key `list` probes for the name `n` in the resolved directory `dir`. */
  function ProbeIn(dir: string): (probe: string -> Key)
  {
    n => KeyOf(PosixPath.Join(dir, n))
  }

  /**
   * What `list` returns for the listing `names`, each name probed under
   * the key `probe` gives it: in listing order, one entry for each name
   * whose probe can still be reached, the others dropped.
   */
  function Listing(s: Store, probe: string -> Key, names: seq<string>): (r: seq<FileEntry>)
    ensures |r| <= |names|
    decreases |names|
  {
    if names == [] then []
    else
      var init := Listing(s, probe, names[..|names| - 1]);
      var name := names[|names| - 1];
      if probe(name) in s then init + [FileEntry(StatOf(s[probe(name)]), name)] else init
  }

  lemma ListingStep(s: Store, probe: string -> Key, names: seq<string>, i: nat)
    requires i < |names|
    ensures Listing(s, probe, names[..i + 1])
         == Listing(s, probe, names[..i]) + (if probe(names[i]) in s then [FileEntry(StatOf(s[probe(names[i])]), names[i])] else [])
  {
    assert names[..i + 1][..i] == names[..i];
  }

  /** Listing a concatenation lists each part in turn: the directory's order is kept. */
  lemma {:induction false} ListingAppend(s: Store, probe: string -> Key, a: seq<string>, b: seq<string>)
    ensures Listing(s, probe, a + b) == Listing(s, probe, a) + Listing(s, probe, b)
    decreases |b|
  {
    if b == [] {
      assert a + b == a;
    } else {
      var init := b[..|b| - 1];
      ListingAppend(s, probe, a, init);
      assert (a + b)[..|a + b| - 1] == a + init;
      assert (a + b)[|a + b| - 1] == b[|b| - 1];
    }
  }

  /** Each listed entry carries a listed name whose joined path exists, and that path's stat. */
  lemma {:induction false} ListingSound(s: Store, probe: string -> Key, names: seq<string>)
    ensures forall e | e in Listing(s, probe, names) ::
      && e.name in names
      && probe(e.name) in s
      && e.stat == StatOf(s[probe(e.name)])
    decreases |names|
  {
    if names != [] {
      var init := names[..|names| - 1];
      ListingSound(s, probe, init);
      forall e | e in Listing(s, probe, names)
        ensures e.name in names
      {
        if e in Listing(s, probe, init) {
          assert e.name in init;
          var j :| 0 <= j < |init| && init[j] == e.name;
          assert names[j] == e.name;
        } else {
          assert e.name == names[|names| - 1];
        }
      }
    }
  }

  /** Each listed name whose joined path exists is listed, with that path's stat. */
  lemma {:induction false} ListingComplete(s: Store, probe: string -> Key, names: seq<string>)
    ensures forall n | n in names && probe(n) in s ::
      FileEntry(StatOf(s[probe(n)]), n) in Listing(s, probe, names)
    decreases |names|
  {
    if names != [] {
      var init := names[..|names| - 1];
      ListingComplete(s, probe, init);
      forall n | n in names && probe(n) in s
        ensures FileEntry(StatOf(s[probe(n)]), n) in Listing(s, probe, names)
      {
        if n != names[|names| - 1] {
          var j :| 0 <= j < |names| && names[j] == n;
          assert init[j] == n;
        }
      }
    }
  }

  /** When every listed name still exists, nothing is dropped and the names come in listing order. */
  lemma {:induction false} ListingAllPresent(s: Store, probe: string -> Key, names: seq<string>)
    requires forall i | 0 <= i < |names| :: probe(names[i]) in s
    ensures |Listing(s, probe, names)| == |names|
    ensures forall i | 0 <= i < |names| :: Listing(s, probe, names)[i].name == names[i]
    decreases |names|
  {
    if names != [] {
      var init := names[..|names| - 1];
      ListingAllPresent(s, probe, init);
    }
  }

  /**
   * An entry of `list(".")` whose name is plain is found again by `get`
   * of that name, with the same stat.
   */
  lemma ListedEntriesFound(s: Store, root: string, cwd: string, names: seq<string>)
    requires PosixPath.IsAbsolute(root) && Jail.Confined(cwd)
    ensures forall e | e in Listing(s, ProbeIn(Jail.Resolve(root, cwd, ".")), names) && PosixPath.IsName(e.name) && '\\' !in e.name ::
      KeyOf(Jail.Resolve(root, cwd, e.name)) in s && StatOf(s[KeyOf(Jail.Resolve(root, cwd, e.name))]) == e.stat
  {
    var probe := ProbeIn(Jail.Resolve(root, cwd, "."));
    ListingSound(s, probe, names);
    forall e | e in Listing(s, probe, names) && PosixPath.IsName(e.name) && '\\' !in e.name
      ensures KeyOf(Jail.Resolve(root, cwd, e.name)) in s && StatOf(s[KeyOf(Jail.Resolve(root, cwd, e.name))]) == e.stat
    {
      Jail.ListedNameReachable(root, cwd, e.name);
    }
  }

  /**
   * `list`'s mapping step: each name is probed with `access`, then
   * `stat`; a name whose probe fails yields nothing, the others an entry
   * named as listed, in listing order.
   */
  method StatEach(s: Store, probe: string -> Key, names: seq<string>) returns (entries: seq<FileEntry>)
    ensures entries == Listing(s, probe, names)
  {
    entries := [];
    var i := 0;
    while i < |names|
      invariant 0 <= i <= |names|
      invariant entries == Listing(s, probe, names[..i])
    {
      var filePath := probe(names[i]);
      if filePath in s {  // access(F_OK)
        var st := StatAt(s, filePath);
        if st.Ok? {
          entries := entries + [FileEntry(st.value, names[i])];
        }
      }
      ListingStep(s, probe, names, i);
      i := i + 1;
    }
    assert names[..i] == names;
  }

  /** How a storage operation's outcome becomes the method's result and new storage. */
  ghost predicate Applied(op: Result<Store>, r: Result<()>, after: Store, before: Store)
  {
    match op
    case Ok(s) => after == s && r == Ok(())
    case Err(e) => after == before && r == Err(e)
  }

  /**
   * A rename's outcome: on success the subtree at `f` is found under `t`,
   * the parent of `f` no longer lists `f`'s name, the parent of `t` lists
   * `t`'s name, and entries outside both subtrees and their parents are
   * untouched; a target whose parent is not a directory fails and changes
   * nothing.
   */
  ghost predicate Relocated(before: Store, after: Store, f: Key, t: Key, r: Result<()>)
  {
    && (r.Ok? && f != t ==> f in before && t in after && after[t] == before[f] && f !in after)
    && (r.Ok? && f != t ==> forall q | q in before && f <= q :: t + q[|f|..] in after && after[t + q[|f|..]] == before[q])
    && (r.Ok? && f != t ==> forall q | q in before && !(f <= q) && !(t <= q) && q != Parent(f) && q != Parent(t) ::
          q in after && after[q] == before[q])
    && (f in before && f != t && (t == [] || Parent(t) !in before || !before[Parent(t)].Dir?) ==>
          r.Err? && after == before)
    && (r.Ok? && f != t && Parent(f) != Parent(t) && Parent(f) in before ==>
          Parent(f) in after && after[Parent(f)] == DropEntry(before[Parent(f)], BaseName(f)))
    && (r.Ok? && f != t && Parent(t) in before && before[Parent(t)].Dir? ==>
          && Parent(t) in after
          && after[Parent(t)] == WithEntry(if Parent(f) == Parent(t) then DropEntry(before[Parent(t)], BaseName(f))
                                           else before[Parent(t)], BaseName(t)))
  }

  /** The backend's `rename` has the outcome `Relocated` describes. */
  lemma RenameRelocates(s: Store, f: Key, t: Key)
    ensures match Storage.Rename(s, f, t)
      case Ok(after) => Relocated(s, after, f, t, Ok(()))
      case Err(e) => Relocated(s, s, f, t, Err(e))
  {
  }

  class FileSystem {
    var root: string
    var cwd: string
    var storage: Store

    /** The session invariant: the working directory is absolute and has no ".." segment. */
    ghost predicate Valid()
      reads this`cwd
    {
      Jail.Confined(cwd)
    }

    /**
     * Both options go through `_normalize`. A working directory given
     * as an absolute path (the default is "/") makes a valid session.
     */
    constructor (backend: Store, rootOption: string := "/", cwdOption: string := "/")
      ensures root == Jail.Normalize(rootOption) && cwd == Jail.Normalize(cwdOption)
      ensures storage == backend
      ensures |cwdOption| > 0 && (cwdOption[0] == '/' || cwdOption[0] == '\\') ==> Valid()
    {
      cwd := Jail.Normalize(cwdOption);
      root := Jail.Normalize(rootOption);
      storage := backend;
      Jail.NormalizeFacts(cwdOption);
    }

    /**
     * `_resolvePath`: the root followed by the request joined under the
     * working directory; with an absolute working directory the path
     * walks below the root.
     */
    function ResolvePath(p: string): (r: string)
      reads this`root, this`cwd
      ensures r == root + PosixPath.Join(cwd, Jail.Normalize(p))
      ensures PosixPath.IsAbsolute(cwd) ==> PosixPath.Walk(root) <= KeyOf(r)
    {
      var r := Jail.Resolve(root, cwd, p);
      Jail.ResolveShape(root, cwd, p);
      assert PosixPath.IsAbsolute(cwd) ==> PosixPath.Walk(root) <= KeyOf(r) by {
        if PosixPath.IsAbsolute(cwd) {
          Jail.JailWalk(root, cwd, p);
        }
      }
      r
    }

    /** `currentDirectory`: in a valid session an absolute path with no ".." segment. */
    function CurrentDirectory(): (r: string)
      reads this`cwd
      ensures r == cwd
      ensures Valid() ==> PosixPath.IsAbsolute(r) && ".." !in PosixPath.Split(r)
    {
      cwd
    }

    /** `get`: the stat of the resolved path, named as requested; a missing path is NotFound. */
    method Get(fileName: string) returns (r: Result<FileEntry>)
      ensures var k := KeyOf(ResolvePath(fileName));
        && (k in storage ==> r == Ok(FileEntry(StatOf(storage[k]), fileName)))
        && (k !in storage ==> r == Err(NotFound))
    {
      var path := ResolvePath(fileName);
      var st := StatAt(storage, KeyOf(path));
      match st
      case Ok(stat) => r := Ok(FileEntry(stat, fileName));
      case Err(e) => r := Err(e);
    }

    /**
     * `list`: read the resolved directory, then probe each name joined
     * to it; names that no longer exist are dropped, the rest keep the
     * directory's order.
     */
    method List(path: string := ".") returns (r: Result<seq<FileEntry>>)
      ensures var dir := ResolvePath(path);
        match ReadDir(storage, KeyOf(dir))
        case Err(e) => r == Err(e)
        case Ok(names) => r == Ok(Listing(storage, ProbeIn(dir), names))
    {
      var dir := ResolvePath(path);
      var listed := ReadDir(storage, KeyOf(dir));
      if listed.Err? {
        return Err(listed.error);
      }
      var entries := StatEach(storage, ProbeIn(dir), listed.value);
      r := Ok(entries);
    }

    /**
     * `chdir`: only onto an existing directory. On success the working
     * directory is the request joined under the old one (the resolved
     * path with the root cut off), and it is returned; on failure
     * nothing changes. A valid session stays valid.
     */
    method Chdir(path: string := ".") returns (r: Result<string>)
      modifies this`cwd
      ensures var k := KeyOf(old(ResolvePath(path)));
        && (k !in storage ==> r == Err(NotFound) && cwd == old(cwd))
        && (k in storage && storage[k].File? ==> r == Err(NotADirectory) && cwd == old(cwd))
        && (k in storage && storage[k].Dir? ==>
              cwd == PosixPath.Join(old(cwd), Jail.Normalize(path)) && r == Ok(cwd))
      ensures r.Ok? ==> root + cwd == old(ResolvePath(path))
      ensures root == old(root) && storage == old(storage)
      ensures old(Valid()) ==> Valid()
    {
      var resolved := ResolvePath(path);
      var st := StatAt(storage, KeyOf(resolved));
      if st.Err? {
        return Err(st.error);
      }
      if !st.value.isDirectory {
        return Err(NotADirectory);
      }
      ghost var base := PosixPath.Join(cwd, Jail.Normalize(path));
      Jail.ResolveShape(root, cwd, path);
      if Valid() {
        Jail.JailSafety(root, cwd, path);
      }
      var rest := resolved[|root|..];
      assert rest == base;
      cwd := if rest == "" then "/" else rest;
      r := Ok(CurrentDirectory());
    }

    /**
     * `write`: a stream opened with flag 'w+' (truncate) or 'a+'
     * (append); `data` is everything written to it, and `refused` is the
     * operating system refusing the open for a reason the storage map
     * does not capture. When the open fails, the stream's error handler
     * unlinks the path: a file that was already there is deleted with
     * it, anything else is left as it was.
     */
    method Write(fileName: string, data: seq<bv8>, append: bool := false, refused: bool := false) returns (r: Result<()>)
      modifies this`storage
      ensures var k := KeyOf(ResolvePath(fileName));
        match OpenWrite(old(storage), k, append, data, refused)
        case Ok(s) => storage == s && r == Ok(())
        case Err(e) =>
          && r == Err(e)
          && storage == (match Unlink(old(storage), k) case Ok(s) => s case Err(_) => old(storage))
      ensures var k := KeyOf(ResolvePath(fileName));
        && (r.Ok? ==> k in storage && storage[k].File?)
        && (r.Err? && k in old(storage) && old(storage)[k].File? && k != [] ==> storage.Keys == old(storage).Keys - {k})
        && (r.Err? && !(k in old(storage) && old(storage)[k].File?) ==> storage == old(storage))
    {
      var k := KeyOf(ResolvePath(fileName));
      var stream := OpenWrite(storage, k, append, data, refused);
      match stream
      case Ok(s) =>
        storage := s;
        r := Ok(());
      case Err(e) =>
        var cleanup := Unlink(storage, k);
        if cleanup.Ok? {
          storage := cleanup.value;
        }
        r := Err(e);
    }

    /** `read`: the contents of a file; a directory cannot be read, a missing path is NotFound. */
    method Read(fileName: string) returns (r: Result<seq<bv8>>)
      ensures var k := KeyOf(ResolvePath(fileName));
        && (k !in storage ==> r == Err(NotFound))
        && (k in storage && storage[k].Dir? ==> r == Err(CannotReadDirectory))
        && (k in storage && storage[k].File? ==> r == Ok(storage[k].data))
    {
      var k := KeyOf(ResolvePath(fileName));
      var st := StatAt(storage, k);
      if st.Err? {
        return Err(st.error);
      }
      if st.value.isDirectory {
        return Err(CannotReadDirectory);
      }
      r := Ok(storage[k].data);
    }

    /**
     * `delete`: a directory goes through `rmdir`, anything else through
     * `unlink`; a missing path is NotFound and changes nothing.
     */
    method Delete(path: string) returns (r: Result<()>)
      modifies this`storage
      ensures var k := KeyOf(ResolvePath(path));
        && (k !in old(storage) ==> r == Err(NotFound) && storage == old(storage))
        && (k in old(storage) && old(storage)[k].Dir? ==>
              Applied(RemoveDir(old(storage), k), r, storage, old(storage)))
        && (k in old(storage) && old(storage)[k].File? ==>
              Applied(Unlink(old(storage), k), r, storage, old(storage)))
        && (r.Ok? ==> storage.Keys == old(storage).Keys - {k})
    {
      var k := KeyOf(ResolvePath(path));
      var st := StatAt(storage, k);
      if st.Err? {
        return Err(st.error);
      }
      var removed := if st.value.isDirectory then RemoveDir(storage, k) else Unlink(storage, k);
      match removed
      case Ok(s) =>
        storage := s;
        r := Ok(());
      case Err(e) =>
        r := Err(e);
    }

    /** `mkdir`: a new empty directory; on success the resolved path is returned. */
    method Mkdir(path: string) returns (r: Result<string>)
      modifies this`storage
      ensures var resolved := ResolvePath(path);
        match MakeDir(old(storage), KeyOf(resolved))
        case Ok(s) => storage == s && r == Ok(resolved)
        case Err(e) => storage == old(storage) && r == Err(e)
      ensures r.Ok? ==> KeyOf(r.value) !in old(storage) && storage[KeyOf(r.value)] == Dir([], DirMode)
    {
      var resolved := ResolvePath(path);
      var k := KeyOf(resolved);
      var made := MakeDir(storage, k);
      match made
      case Ok(s) =>
        assert k !in storage && s[k] == Dir([], DirMode);
        storage := s;
        r := Ok(resolved);
      case Err(e) =>
        r := Err(e);
    }

    /** `rename`: both paths are resolved; the entry at the first now lives at the second. */
    method Rename(from: string, to: string) returns (r: Result<()>)
      modifies this`storage
      ensures var f, t := KeyOf(ResolvePath(from)), KeyOf(ResolvePath(to));
        && Applied(Storage.Rename(old(storage), f, t), r, storage, old(storage))
        && Relocated(old(storage), storage, f, t, r)
    {
      var f := KeyOf(ResolvePath(from));
      var t := KeyOf(ResolvePath(to));
      var moved := Storage.Rename(storage, f, t);
      RenameRelocates(storage, f, t);
      match moved
      case Ok(s) =>
        storage := s;
        r := Ok(());
      case Err(e) =>
        r := Err(e);
    }

    /** `chmod`: the mode of the resolved path changes and nothing else. */
    method Chmod(path: string, mode: nat) returns (r: Result<()>)
      modifies this`storage
      ensures var k := KeyOf(ResolvePath(path));
        && Applied(Storage.Chmod(old(storage), k, mode), r, storage, old(storage))
        && (r.Ok? ==> storage[k].mode == mode && storage.Keys == old(storage).Keys)
        && (r.Err? ==> r.error == NotFound)
    {
      var k := KeyOf(ResolvePath(path));
      match Storage.Chmod(storage, k, mode)
      case Ok(s) =>
        storage := s;
        r := Ok(());
      case Err(e) =>
        r := Err(e);
    }
  }

  // ---------------------------------------------------------------------
  // Sessions: one operation after another

  /** A directory just made can be entered; the session stays valid. */
  method MkdirThenChdir(fs: FileSystem, path: string) returns (made: Result<string>, moved: Result<string>)
    requires fs.Valid()
    modifies fs
    ensures fs.Valid() && fs.root == old(fs.root)
    ensures made.Ok? ==> fs.cwd == PosixPath.Join(old(fs.cwd), Jail.Normalize(path)) && moved == Ok(fs.cwd)
  {
    made := fs.Mkdir(path);
    moved := fs.Chdir(path);
  }

  /**
   * An open the operating system refuses removes a file that was there:
   * the error handler's `unlink` deletes it, so `get` no longer finds it.
   */
  method RefusedWriteThenGet(fs: FileSystem, fileName: string, data: seq<bv8>, append: bool)
    returns (written: Result<()>, got: Result<FileEntry>)
    modifies fs`storage
    ensures var k := KeyOf(fs.ResolvePath(fileName));
      && written.Err?
      && (k in old(fs.storage) && old(fs.storage)[k].File? && k != [] ==> got == Err(NotFound))
      && (!(k in old(fs.storage) && old(fs.storage)[k].File?) ==> fs.storage == old(fs.storage))
  {
    written := fs.Write(fileName, data, append, true);
    got := fs.Get(fileName);
  }

  /** What was written is read back: alone after 'w+', after the old contents after 'a+'. */
  method WriteThenRead(fs: FileSystem, fileName: string, data: seq<bv8>, append: bool)
    returns (written: Result<()>, read: Result<seq<bv8>>)
    modifies fs`storage
    ensures var k := KeyOf(fs.ResolvePath(fileName));
      written.Ok? ==>
        read == Ok(if append && k in old(fs.storage) && old(fs.storage)[k].File? then old(fs.storage)[k].data + data else data)
  {
    ghost var k := KeyOf(fs.ResolvePath(fileName));
    ghost var before := fs.storage;
    written := fs.Write(fileName, data, append);
    assert KeyOf(fs.ResolvePath(fileName)) == k;
    if written.Ok? {
      ghost var stream := OpenWrite(before, k, append, data, false);
      assert stream.Ok? && fs.storage == stream.value;
      assert fs.storage[k] == File(if append && k in before then before[k].data + data else data, fs.storage[k].mode);
    }
    read := fs.Read(fileName);
  }

  /** After a successful delete the path is gone: `get` reports NotFound. */
  method DeleteThenGet(fs: FileSystem, path: string) returns (deleted: Result<()>, got: Result<FileEntry>)
    modifies fs`storage
    ensures deleted.Ok? ==> got == Err(NotFound)
  {
    deleted := fs.Delete(path);
    got := fs.Get(path);
  }
}

=== FILE: jail.dfy ===
/**
 * Path handling of the jailed file system: `_normalize` cleans up what a
 * client sends, `_resolvePath` joins it under the session's working
 * directory and writes the jail root in front.
 */
module Jail {
  import opened PosixPath

  /** Every backslash becomes '/'. */
  function ReplaceBackslashes(s: string): (r: string)
    ensures |r| == |s| && '\\' !in r
  {
    seq(|s|, i requires 0 <= i < |s| => if s[i] == '\\' then '/' else s[i])
  }

  /**
   * A global regular-expression replace of the pair `c c` by '/':
   * scanned left to right, matches do not overlap, so "///" becomes "//".
   */
  function CollapsePairs(s: string, c: char): (r: string)
  {
    if |s| >= 2 && s[0] == c && s[1] == c then "/" + CollapsePairs(s[2..], c)
    else if s == [] then []
    else [s[0]] + CollapsePairs(s[1..], c)
  }

  /**
   * `_normalize`: backslashes become '/', then pairs of backslashes and
   * pairs of slashes become one '/', then Node's `path.normalize` runs.
   */
  function Normalize(p: string): (r: string)
    ensures r != ""
    ensures p == "" ==> r == "."
    ensures '\\' !in r
    ensures |p| > 0 && (p[0] == '/' || p[0] == '\\') ==> IsAbsolute(r)
  {
    var q := CollapsePairs(CollapsePairs(ReplaceBackslashes(p), '\\'), '/');
    PreparedFacts(p);
    NormalizeChars(q, '\\');
    PosixPath.Normalize(q)
  }

  /**
   * `_resolvePath`: the normalized request joined under `cwd`, with the
   * jail root written in front by `path.format({root, base})`.
   */
  function Resolve(root: string, cwd: string, p: string): (r: string)
    ensures root <= r && |r| > |root|
    ensures IsAbsolute(cwd) ==> r[|root|] == '/'
  {
    Format(root, Join(cwd, Normalize(p)))
  }

  /** A working directory the jail can rely on: absolute, with no ".." segment. */
  predicate Confined(dir: string)
  {
    IsAbsolute(dir) && forall i | 0 <= i < |Split(dir)| :: Split(dir)[i] != ".."
  }

  // ---------------------------------------------------------------------
  // The two replacements

  lemma {:induction false} CollapseAvoids(s: string, c: char, x: char)
    requires x != '/' && x !in s
    ensures x !in CollapsePairs(s, c)
    decreases |s|
  {
    if |s| >= 2 && s[0] == c && s[1] == c {
      assert x !in s[2..] by {
        forall y | y in s[2..] ensures y != x { assert y in s; }
      }
      CollapseAvoids(s[2..], c, x);
    } else if s != [] {
      assert x !in s[1..] by {
        forall y | y in s[1..] ensures y != x { assert y in s; }
      }
      CollapseAvoids(s[1..], c, x);
    }
  }

  /** With no pair `c c` to replace, the replace changes nothing. */
  lemma {:induction false} CollapseNoPair(s: string, c: char)
    requires forall i | 0 <= i < |s| - 1 :: !(s[i] == c && s[i + 1] == c)
    ensures CollapsePairs(s, c) == s
    decreases |s|
  {
    if s != [] {
      var t := s[1..];
      assert forall i | 0 <= i < |t| - 1 :: !(t[i] == c && t[i + 1] == c) by {
        forall i | 0 <= i < |t| - 1 ensures !(t[i] == c && t[i + 1] == c) {
          assert t[i] == s[i + 1] && t[i + 1] == s[i + 2];
        }
      }
      CollapseNoPair(t, c);
      assert [s[0]] + t == s;
    }
  }

  lemma CollapseSlashesAbsolute(s: string)
    ensures IsAbsolute(CollapsePairs(s, '/')) == IsAbsolute(s)
  {
  }

  /** What the cleaned-up string looks like before Node's normalize sees it. */
  lemma PreparedFacts(p: string)
    ensures var q := CollapsePairs(CollapsePairs(ReplaceBackslashes(p), '\\'), '/');
      && '\\' !in q
      && (q == "" <==> p == "")
      && (IsAbsolute(q) <==> |p| > 0 && (p[0] == '/' || p[0] == '\\'))
  {
    var b := ReplaceBackslashes(p);
    assert '\\' !in b;
    CollapseNoPair(b, '\\');
    var q := CollapsePairs(b, '/');
    CollapseAvoids(b, '/', '\\');
    CollapseSlashesAbsolute(b);
    assert q == "" <==> b == "";
  }

  // ---------------------------------------------------------------------
  // Properties of _normalize

  /**
   * After `_normalize` there is no backslash, no "//", no "." segment
   * (unless the result is "." or "./" itself) and, when the result is
   * absolute, no ".." segment; the empty request gives ".", and the
   * result is absolute exactly when the request starts with '/' or '\'.
   */
  lemma NormalizeFacts(p: string)
    ensures var r := Normalize(p);
      && (p == "" ==> r == ".")
      && r != ""
      && '\\' !in r
      && NoDoubleSlash(r)
      && (r != "." && r != "./" ==> forall i | 0 <= i < |Split(r)| :: Split(r)[i] != ".")
      && (IsAbsolute(r) ==> forall i | 0 <= i < |Split(r)| :: Split(r)[i] != "..")
      && (IsAbsolute(r) <==> |p| > 0 && (p[0] == '/' || p[0] == '\\'))
  {
    var q := CollapsePairs(CollapsePairs(ReplaceBackslashes(p), '\\'), '/');
    PreparedFacts(p);
    NormalizeShape(q);
    NormalizeChars(q, '\\');
  }

  /** `_normalize` is idempotent. */
  lemma NormalizeIdempotent(p: string)
    ensures Normalize(Normalize(p)) == Normalize(p)
  {
    var r := Normalize(p);
    NormalizeFacts(p);
    assert ReplaceBackslashes(r) == r;
    CollapseNoPair(r, '\\');
    CollapseNoPair(r, '/');
    PosixPath.NormalizeIdempotent(CollapsePairs(CollapsePairs(ReplaceBackslashes(p), '\\'), '/'));
  }

  // ---------------------------------------------------------------------
  // Properties of _resolvePath

  /**
   * The resolved path is the root followed by the joined base, and the
   * base is never empty.
   */
  lemma ResolveShape(root: string, cwd: string, p: string)
    ensures Join(cwd, Normalize(p)) != ""
    ensures Resolve(root, cwd, p) == root + Join(cwd, Normalize(p))
  {
    NormalizeFacts(p);
    var n := Normalize(p);
    var joined := if cwd == "" then n else cwd + "/" + n;
    NormalizeShape(joined);
  }

  /**
   * Jail safety, on the string: with an absolute `cwd`, the resolved path
   * is `root + base` where `base` is confined (it starts with '/' and has
   * no ".." segment), whatever the request.
   */
  lemma JailSafety(root: string, cwd: string, p: string)
    requires IsAbsolute(cwd)
    ensures var base := Join(cwd, Normalize(p));
      Resolve(root, cwd, p) == root + base && Confined(base)
  {
    ResolveShape(root, cwd, p);
    NormalizeFacts(p);
    var joined := cwd + "/" + Normalize(p);
    NormalizeShape(joined);
  }

  /**
   * Jail safety, as the operating system reads it: the directory chain
   * walked for the resolved path starts with the chain walked for the
   * root, followed by the names of the joined base.
   */
  lemma JailWalk(root: string, cwd: string, p: string)
    requires IsAbsolute(cwd)
    ensures Walk(Resolve(root, cwd, p)) == Walk(root) + Stack(cwd + "/" + Normalize(p))
    ensures Walk(root) <= Walk(Resolve(root, cwd, p))
  {
    ResolveShape(root, cwd, p);
    NormalizeFacts(p);
    var joined := cwd + "/" + Normalize(p);
    assert IsAbsolute(joined);
    WalkUnder(root, joined);
  }

  /**
   * A request that starts with '/' (or '\') is not taken from the jail
   * root: it is appended below the working directory.
   */
  lemma AbsoluteRequestUnderCwd(root: string, cwd: string, p: string)
    requires Confined(cwd)
    requires |p| > 0 && (p[0] == '/' || p[0] == '\\')
    ensures Walk(Resolve(root, cwd, p)) == Walk(root) + Walk(cwd) + Walk(Normalize(p))
  {
    JailWalk(root, cwd, p);
    var q := CollapsePairs(CollapsePairs(ReplaceBackslashes(p), '\\'), '/');
    PreparedFacts(p);
    StackJoinAbsolute(cwd, q);
    NormalizeStack(q);
    NormalizeShape(q);
    StackOfRenderNormalized(q);
  }

  lemma StackOfRenderNormalized(q: string)
    requires IsAbsolute(q)
    ensures Walk(PosixPath.Normalize(q)) == Stack(q)
  {
    NormalizeStack(q);
    WalkUnder("", q);
    assert "" + PosixPath.Normalize(q) == PosixPath.Normalize(q);
    assert Walk("") == [];
  }

  /** A request that is already clean (no backslash, no "//") reaches Node's normalize unchanged. */
  lemma NormalizeClean(p: string, q: string)
    requires ReplaceBackslashes(p) == q && '\\' !in q && NoDoubleSlash(q)
    ensures Normalize(p) == PosixPath.Normalize(q)
  {
    CollapseNoPair(q, '\\');
    CollapseNoPair(q, '/');
  }

  /** With cwd "/a", the request "/x" resolves to the root followed by "/a/x". */
  lemma AbsoluteRequestExample(root: string)
    ensures Resolve(root, "/a", "/x") == root + "/a/x"
  {
    var x, a := ["x"], ["a"];
    assert Render(x, true, false) == "/x";
    assert Render(a, true, false) == "/a";
    RenderFacts(x, true, false);
    JoinAvoids(x, '\\');
    assert ReplaceBackslashes("/x") == "/x";
    NormalizeClean("/x", "/x");
    StackOfRender(x, true, false);
    StackOfRender(a, true, false);
    assert PosixPath.Normalize("/x") == "/x";
    StackJoinAbsolute("/a", "/x");
    var joined := "/a" + "/" + "/x";
    assert Stack(joined) == ["a", "x"];
    assert IsAbsolute(joined) && !HasTrailingSlash(joined);
    assert Join("/a", "/x") == Render(["a", "x"], true, false);
    assert JoinSlash(["a", "x"]) == "a/x";
  }

  lemma ReplaceBackslashesConcat(a: string, b: string)
    ensures ReplaceBackslashes(a + b) == ReplaceBackslashes(a) + ReplaceBackslashes(b)
  {
  }

  lemma ReplaceBackslashesNone(s: string)
    requires '\\' !in s
    ensures ReplaceBackslashes(s) == s
  {
  }

  /**
   * From cwd "/", a request that climbs with two backslashed ".." and
   * then names `x\y` (such as "..\\..\\etc\\passwd") resolves to the
   * root followed by "/x/y": the climb stops at the jail root.
   */
  lemma TraversalExample(root: string, x: string, y: string)
    requires IsName(x) && IsName(y) && '\\' !in x && '\\' !in y
    ensures Resolve(root, "/", "..\\..\\" + x + "\\" + y) == root + "/" + x + "/" + y
  {
    TraversalBase(x, y);
  }

  lemma TraversalBase(x: string, y: string)
    requires IsName(x) && IsName(y) && '\\' !in x && '\\' !in y
    ensures Join("/", Normalize("..\\..\\" + x + "\\" + y)) == "/" + x + "/" + y
  {
    TraversalNormalized(x, y);
    TraversalJoined(x, y);
    assert [x, y][1..] == [y];
    assert JoinSlash([x, y]) == x + "/" + y;
  }

  lemma TraversalRendered(x: string, y: string)
    requires IsName(x) && IsName(y)
    ensures Canonical(["..", "..", x, y], false)
    ensures Render(["..", "..", x, y], false, false) == "../../" + x + "/" + y
  {
    var s := ["..", "..", x, y];
    assert s[1..] == ["..", x, y] && s[2..] == [x, y] && [x, y][1..] == [y];
    assert JoinSlash([x, y]) == x + "/" + y;
    assert JoinSlash(["..", x, y]) == ".." + "/" + (x + "/" + y);
    assert JoinSlash(s) == ".." + "/" + (".." + "/" + (x + "/" + y));
    assert Render(s, false, false) == "" + JoinSlash(s) + "";
  }

  lemma TraversalNormalized(x: string, y: string)
    requires IsName(x) && IsName(y) && '\\' !in x && '\\' !in y
    ensures Normalize("..\\..\\" + x + "\\" + y) == "../../" + x + "/" + y
  {
    var p := "..\\..\\" + x + "\\" + y;
    var q := "../../" + x + "/" + y;
    var stack := ["..", "..", x, y];
    assert ReplaceBackslashes(p) == q by {
      ReplaceBackslashesConcat("..\\..\\" + x + "\\", y);
      ReplaceBackslashesConcat("..\\..\\" + x, "\\");
      ReplaceBackslashesConcat("..\\..\\", x);
      ReplaceBackslashesNone(x);
      ReplaceBackslashesNone(y);
      assert ReplaceBackslashes("..\\..\\") == "../../";
      assert ReplaceBackslashes("\\") == "/";
    }
    assert '\\' !in q && NoDoubleSlash(q) by {
      TraversalRendered(x, y);
      RenderFacts(stack, false, false);
      JoinAvoids(stack, '\\');
    }
    assert PosixPath.Normalize(q) == q by {
      TraversalRendered(x, y);
      StackOfRender(stack, false, false);
    }
    NormalizeClean(p, q);
  }

  lemma TraversalJoined(x: string, y: string)
    requires IsName(x) && IsName(y)
    ensures Join("/", "../../" + x + "/" + y) == "/" + JoinSlash([x, y])
  {
    var q := "../../" + x + "/" + y;
    var stack := ["..", "..", x, y];
    var joined := "/" + "/" + q;
    assert Split(joined) == ["", ""] + stack by {
      assert Split(q) == stack by {
        TraversalRendered(x, y);
        RenderSplit(stack, false, false);
      }
      assert Split("/") == ["", ""] by {
        SplitConcat("", "");
        assert "" + "/" + "" == "/";
      }
      SplitConcat("/", q);
    }
    TraversalFold(x, y);
    assert Stack(joined) == [x, y];
    assert IsAbsolute(joined) && !HasTrailingSlash(joined) by {
      assert joined[|joined| - 1] == y[|y| - 1];
      assert y[|y| - 1] in y;
    }
    assert Join("/", q) == PosixPath.Normalize(joined);
    assert PosixPath.Normalize(joined) == Render([x, y], true, false);
  }

  /** Two leading empty segments vanish and the two ".." stop at the top. */
  lemma TraversalFold(x: string, y: string)
    requires IsName(x) && IsName(y)
    ensures Fold([], ["", ""] + ["..", "..", x, y], true) == [x, y]
  {
    var stack := ["..", "..", x, y];
    FoldAppend([], ["", ""], stack, true);
    assert Fold([], ["", ""], true) == [];
    assert stack[1..] == ["..", x, y] && stack[1..][1..] == [x, y] && [x, y][1..] == [y];
    assert Step([], "..", true) == [];
    assert Fold([], stack, true) == Fold([], ["..", x, y], true);
    assert Fold([], ["..", x, y], true) == Fold([], [x, y], true);
    assert Step([], x, true) == [x];
    assert Fold([], [x, y], true) == Fold([x], [y], true);
    assert Step([x], y, true) == [x, y];
    assert Fold([x], [y], true) == [x, y];
  }

  // ---------------------------------------------------------------------
  // Plain names: what `list` reports and what a client sends back

  /** A plain name (not "." or "..", no '/', no backslash) passes `_normalize` unchanged. */
  lemma PlainNameNormalize(n: string)
    requires IsName(n) && '\\' !in n
    ensures Normalize(n) == n
  {
    ReplaceBackslashesNone(n);
    forall i | 0 <= i < |n| - 1
      ensures !(n[i] == '/' && n[i + 1] == '/')
    {
      assert n[i] in n;
    }
    NormalizeClean(n, n);
    SplitNoSlash(n);
    assert !IsAbsolute(n) by { assert n[0] in n; }
    assert Fold([], [n], false) == Fold([n], [], false) by { assert [n][1..] == []; }
    assert !HasTrailingSlash(n) by { assert n[|n| - 1] in n; }
  }

  lemma DotNormalize()
    ensures Normalize(".") == "."
  {
    SplitNoSlash(".");
    NormalizeClean(".", ".");
  }

  /**
   * Descending into a plain name: the working directory it gives is
   * still confined and walks one name deeper.
   */
  lemma DescendIntoName(cwd: string, x: string)
    requires Confined(cwd) && IsName(x) && '\\' !in x
    ensures Confined(Join(cwd, Normalize(x)))
    ensures Walk(Join(cwd, Normalize(x))) == Walk(cwd) + [x]
  {
    PlainNameNormalize(x);
    var joined := cwd + "/" + x;
    assert IsAbsolute(joined);
    StackAppendName(cwd, x);
    StackOfRenderNormalized(joined);
    JailSafety("", cwd, x);
  }

  /**
   * A name that `list(".")` reports is reached again by `get` of that
   * name: the path `list` probes (the resolved directory joined with the
   * name) and the path `get` resolves walk to the same node.
   */
  lemma ListedNameReachable(root: string, cwd: string, n: string)
    requires IsAbsolute(root) && Confined(cwd) && IsName(n) && '\\' !in n
    ensures Walk(Join(Resolve(root, cwd, "."), n)) == Walk(Resolve(root, cwd, n))
  {
    var d := Resolve(root, cwd, ".");
    assert Walk(d) == Walk(root) + Stack(cwd) by {
      JailWalk(root, cwd, ".");
      DotNormalize();
      StackAppendDot(cwd);
    }
    assert Walk(Join(d, n)) == Walk(d) + [n] by {
      ResolveShape(root, cwd, ".");
      assert IsAbsolute(d) && IsAbsolute(d + "/" + n);
      StackOfRenderNormalized(d + "/" + n);
      StackAppendName(d, n);
    }
    assert Walk(Resolve(root, cwd, n)) == Walk(root) + (Stack(cwd) + [n]) by {
      JailWalk(root, cwd, n);
      PlainNameNormalize(n);
      StackAppendName(cwd, n);
    }
  }

  lemma DotDotNormalize()
    ensures Normalize("..") == ".."
  {
    SplitNoSlash("..");
    NormalizeClean("..", "..");
    assert Stack("..") == [".."] by {
      assert Fold([], [".."], false) == Fold([".."], [], false) by { assert [".."][1..] == []; }
    }
  }

  /**
   * Going up from a confined working directory drops its last name; at
   * the top of the jail it stays at the top. The result is confined.
   */
  lemma ParentOfCwd(cwd: string)
    requires Confined(cwd)
    ensures var up := Join(cwd, Normalize(".."));
      && Confined(up)
      && Walk(up) == if Walk(cwd) == [] then [] else Walk(cwd)[..|Walk(cwd)| - 1]
  {
    DotDotNormalize();
    JailSafety("", cwd, "..");
    var joined := cwd + "/" + "..";
    assert IsAbsolute(joined);
    StackOfRenderNormalized(joined);
    SplitConcat(cwd, "..");
    SplitNoSlash("..");
    FoldAppend([], Split(cwd), [".."], true);
    FoldCanonical([], Split(cwd), true);
    var w := Walk(cwd);
    assert Fold(w, [".."], true) == Step(w, "..", true) by { assert [".."][1..] == []; }
    if w != [] {
      assert IsName(w[|w| - 1]);
    }
  }

  /**
   * The jail holds only for a working directory given with a leading '/':
   * `format` writes the joined base straight after the root, so the
   * relative working directory "foo" under the root "/srv" reaches
   * "/srvfoo", a sibling of the root.
   */
  lemma RelativeCwdSibling()
    ensures Resolve("/srv", "foo", "x") == "/srvfoo/x"
  {
    PlainNameNormalize("x");
    var stack := ["foo", "x"];
    assert JoinSlash(stack) == "foo/x" by {
      assert stack[1..] == ["x"];
    }
    assert Render(stack, false, false) == "foo/x";
    StackOfRender(stack, false, false);
    assert !IsAbsolute("foo/x") && !HasTrailingSlash("foo/x");
    assert Join("foo", "x") == "foo/x";
  }
}

=== FILE: posix_path.dfy ===
/**
 * The part of Node.js's POSIX `path` module that the jailed file system
 * uses: `normalize`, `join` and `format({root, base})`.
 *
 * A path is cut at every '/' into segments. `normalize` folds those
 * segments onto a stack: "" and "." vanish, ".." pops the previous name
 * (a leading ".." is dropped in an absolute path and kept in a relative
 * one). The stack is written back with a leading '/' when the path was
 * absolute and a single trailing '/' when the path ended in one; an empty
 * relative result is "." (or "./").
 */
module PosixPath {

  /** The pieces of `s` between its '/' characters: "a//b/" gives ["a", "", "b", ""]. */
  function Split(s: string): (r: seq<string>)
    ensures |r| >= 1
    ensures forall i | 0 <= i < |r| :: '/' !in r[i]
  {
    if s == [] then [""]
    else
      var rest := Split(s[1..]);
      if s[0] == '/' then [""] + rest
      else [[s[0]] + rest[0]] + rest[1..]
  }

  /** The segments written out with one '/' between each two. */
  function JoinSlash(segs: seq<string>): (r: string)
  {
    if segs == [] then ""
    else if |segs| == 1 then segs[0]
    else segs[0] + "/" + JoinSlash(segs[1..])
  }

  predicate IsAbsolute(p: string)
  {
    |p| > 0 && p[0] == '/'
  }

  predicate HasTrailingSlash(p: string)
  {
    |p| > 0 && p[|p| - 1] == '/'
  }

  /** No two '/' stand next to each other in `p`. */
  predicate NoDoubleSlash(p: string)
  {
    forall i | 0 <= i < |p| - 1 :: !(p[i] == '/' && p[i + 1] == '/')
  }

  /** A segment that names a directory entry: not empty, not "." or "..", no '/'. */
  predicate IsName(seg: string)
  {
    seg != "" && seg != "." && seg != ".." && '/' !in seg
  }

  /**
   * A stack `normalize` can leave behind: names only, except that a
   * relative path may start with a run of "..".
   */
  predicate Canonical(stack: seq<string>, absolute: bool)
  {
    forall i | 0 <= i < |stack| ::
      IsName(stack[i]) || (stack[i] == ".." && !absolute && forall j | 0 <= j < i :: stack[j] == "..")
  }

  /** One segment of the fold. */
  function Step(stack: seq<string>, seg: string, absolute: bool): (r: seq<string>)
  {
    if seg == "" || seg == "." then stack
    else if seg == ".." then
      if |stack| > 0 && stack[|stack| - 1] != ".." then stack[..|stack| - 1]
      else if absolute then stack
      else stack + [".."]
    else stack + [seg]
  }

  function Fold(stack: seq<string>, segs: seq<string>, absolute: bool): (r: seq<string>)
    decreases |segs|
  {
    if segs == [] then stack
    else Fold(Step(stack, segs[0], absolute), segs[1..], absolute)
  }

  /** The segment stack that `normalize` computes for `p`. */
  function Stack(p: string): (r: seq<string>)
  {
    Fold([], Split(p), IsAbsolute(p))
  }

  /** The stack written back as a path; the leading and the trailing '/' are kept. */
  function Render(stack: seq<string>, absolute: bool, trailing: bool): (r: string)
    ensures absolute ==> IsAbsolute(r)
    ensures trailing ==> HasTrailingSlash(r)
  {
    if stack == [] then
      (if absolute then "/" else if trailing then "./" else ".")
    else
      (if absolute then "/" else "") + JoinSlash(stack) + (if trailing then "/" else "")
  }

  /** Node's `path.posix.normalize`. */
  function Normalize(p: string): (r: string)
    ensures r != ""
    ensures p == "" ==> r == "."
    ensures IsAbsolute(p) ==> IsAbsolute(r)
    ensures HasTrailingSlash(p) ==> HasTrailingSlash(r)
  {
    assert p != "" && Stack(p) != [] ==> JoinSlash(Stack(p)) != "" by {
      if p != "" && Stack(p) != [] {
        FoldCanonical([], Split(p), IsAbsolute(p));
        JoinEnds(Stack(p));
      }
    }
    if p == "" then "." else Render(Stack(p), IsAbsolute(p), HasTrailingSlash(p))
  }

  /** Node's `path.posix.join` with two arguments: empty arguments are skipped. */
  function Join(a: string, b: string): (r: string)
    ensures r != ""
    ensures IsAbsolute(a) ==> IsAbsolute(r)
    ensures a == "" && b == "" ==> r == "."
  {
    var joined := if a == "" then b else if b == "" then a else a + "/" + b;
    if joined == "" then "." else Normalize(joined)
  }

  /**
   * Node's `path.format` for an object holding only `root` and `base`:
   * the directory part is `root`, and since it equals `root` no separator
   * is inserted.
   */
  function Format(root: string, base: string): (r: string)
    ensures root <= r && r[|root|..] == base
  {
    if root == "" then base else root + base
  }

  /**
   * The chain of directory names the operating system walks to reach
   * `p`, resolving "." and ".." lexically from '/' (a ".." at '/' stays
   * at '/').
   */
  function Walk(p: string): (r: seq<string>)
  {
    Fold([], Split(p), true)
  }

  // ---------------------------------------------------------------------
  // Splitting and joining

  lemma SplitNoSlash(a: string)
    requires '/' !in a
    ensures Split(a) == [a]
  {
    if a != [] {
      assert '/' !in a[1..] by {
        forall c | c in a[1..] ensures c != '/' { assert c in a; }
      }
      SplitNoSlash(a[1..]);
      assert [a[0]] + a[1..] == a;
    }
  }

  /** Cutting at a '/' splits the segment lists apart. */
  lemma {:induction false} SplitConcat(a: string, t: string)
    ensures Split(a + "/" + t) == Split(a) + Split(t)
  {
    if a == [] {
      assert a + "/" + t == "/" + t;
      assert ("/" + t)[1..] == t;
    } else {
      var s := a + "/" + t;
      assert s[0] == a[0];
      assert s[1..] == a[1..] + "/" + t;
      SplitConcat(a[1..], t);
    }
  }

  lemma {:induction false} SplitJoin(segs: seq<string>)
    requires |segs| >= 1
    requires forall i | 0 <= i < |segs| :: '/' !in segs[i]
    ensures Split(JoinSlash(segs)) == segs
  {
    if |segs| == 1 {
      SplitNoSlash(segs[0]);
    } else {
      SplitJoin(segs[1..]);
      SplitConcat(segs[0], JoinSlash(segs[1..]));
      SplitNoSlash(segs[0]);
      assert [segs[0]] + segs[1..] == segs;
    }
  }

  /** The first and last characters of a joined stack of names come from the names. */
  lemma {:induction false} JoinEnds(segs: seq<string>)
    requires |segs| >= 1
    requires forall i | 0 <= i < |segs| :: segs[i] != "" && '/' !in segs[i]
    ensures var j := JoinSlash(segs); |j| > 0 && j[0] != '/' && j[|j| - 1] != '/'
    ensures NoDoubleSlash(JoinSlash(segs))
  {
    var s0 := segs[0];
    assert s0[0] in s0;
    if |segs| == 1 {
      assert s0[|s0| - 1] in s0;
    } else {
      var rest := JoinSlash(segs[1..]);
      JoinEnds(segs[1..]);
      var j := s0 + "/" + rest;
      assert j[|j| - 1] == rest[|rest| - 1];
      forall i | 0 <= i < |j| - 1
        ensures !(j[i] == '/' && j[i + 1] == '/')
      {
        if i < |s0| {
          assert j[i] == s0[i];
          assert j[i] in s0;
        } else if i > |s0| {
          assert j[i] == rest[i - |s0| - 1] && j[i + 1] == rest[i - |s0|];
        }
      }
    }
  }

  /** What `Split` gives back for a rendered non-empty stack. */
  lemma RenderSplit(stack: seq<string>, absolute: bool, trailing: bool)
    requires |stack| >= 1
    requires forall i | 0 <= i < |stack| :: '/' !in stack[i]
    ensures Split(Render(stack, absolute, trailing))
         == (if absolute then [""] else []) + stack + (if trailing then [""] else [])
  {
    var j := JoinSlash(stack);
    SplitJoin(stack);
    var body := j + (if trailing then "/" else "");
    var bodySplit := stack + (if trailing then [""] else []);
    if trailing {
      SplitConcat(j, "");
      assert j + "/" + "" == body;
    } else {
      assert body == j;
    }
    assert Split(body) == bodySplit;
    if absolute {
      var r := "/" + body;
      assert Render(stack, absolute, trailing) == r;
      assert r[1..] == body;
    } else {
      assert Render(stack, absolute, trailing) == body;
    }
  }

  // ---------------------------------------------------------------------
  // The fold

  lemma StepCanonical(stack: seq<string>, seg: string, absolute: bool)
    requires Canonical(stack, absolute) && '/' !in seg
    ensures Canonical(Step(stack, seg, absolute), absolute)
  {
    var n := |stack|;
    if seg == ".." && !(n > 0 && stack[n - 1] != "..") && !absolute {
      var r := stack + [".."];
      forall j | 0 <= j < n ensures r[j] == ".." {
        assert stack[n - 1] == "..";
        assert !IsName(stack[n - 1]);
      }
    }
  }

  lemma {:induction false} FoldCanonical(stack: seq<string>, segs: seq<string>, absolute: bool)
    requires Canonical(stack, absolute)
    requires forall i | 0 <= i < |segs| :: '/' !in segs[i]
    ensures Canonical(Fold(stack, segs, absolute), absolute)
    decreases |segs|
  {
    if segs != [] {
      StepCanonical(stack, segs[0], absolute);
      FoldCanonical(Step(stack, segs[0], absolute), segs[1..], absolute);
    }
  }

  /** Folding two lists of segments is folding the first, then the second. */
  lemma {:induction false} FoldAppend(stack: seq<string>, a: seq<string>, b: seq<string>, absolute: bool)
    ensures Fold(stack, a + b, absolute) == Fold(Fold(stack, a, absolute), b, absolute)
    decreases |a|
  {
    if a != [] {
      assert (a + b)[0] == a[0];
      assert (a + b)[1..] == a[1..] + b;
      FoldAppend(Step(stack, a[0], absolute), a[1..], b, absolute);
    } else {
      assert a + b == b;
    }
  }

  /** A canonical stack folds onto itself: every segment is pushed. */
  lemma {:induction false} FoldCanonicalIdentity(stack: seq<string>, segs: seq<string>, absolute: bool)
    requires Canonical(stack + segs, absolute)
    ensures Fold(stack, segs, absolute) == stack + segs
    decreases |segs|
  {
    if segs != [] {
      var all := stack + segs;
      var n := |stack|;
      assert all[n] == segs[0];
      if segs[0] == ".." {
        assert forall j | 0 <= j < n :: all[j] == "..";
        if n > 0 {
          assert stack[n - 1] == all[n - 1];
        }
      }
      assert Step(stack, segs[0], absolute) == stack + [segs[0]];
      assert (stack + [segs[0]]) + segs[1..] == all;
      FoldCanonicalIdentity(stack + [segs[0]], segs[1..], absolute);
    }
  }

  lemma CanonicalAppend(a: seq<string>, b: seq<string>)
    requires Canonical(a, true) && Canonical(b, true)
    ensures Canonical(a + b, true)
  {
    forall i | 0 <= i < |a + b| ensures IsName((a + b)[i]) {
      if i < |a| {
        assert (a + b)[i] == a[i];
      } else {
        assert (a + b)[i] == b[i - |a|];
      }
    }
  }

  // ---------------------------------------------------------------------
  // Properties of normalize

  /** `normalize` keeps a path absolute or relative, and a canonical stack. */
  lemma NormalizeStack(p: string)
    requires p != ""
    ensures Canonical(Stack(p), IsAbsolute(p))
    ensures Normalize(p) == Render(Stack(p), IsAbsolute(p), HasTrailingSlash(p))
  {
    FoldCanonical([], Split(p), IsAbsolute(p));
  }

  /**
   * A rendered non-empty canonical stack: absolute and trailing-slashed
   * exactly as asked, no "//", and it splits back into the stack.
   */
  lemma RenderFacts(stack: seq<string>, absolute: bool, trailing: bool)
    requires |stack| >= 1 && Canonical(stack, absolute)
    ensures var r := Render(stack, absolute, trailing);
      && IsAbsolute(r) == absolute
      && HasTrailingSlash(r) == trailing
      && NoDoubleSlash(r)
      && Split(r) == (if absolute then [""] else []) + stack + (if trailing then [""] else [])
  {
    var r := Render(stack, absolute, trailing);
    RenderSplit(stack, absolute, trailing);
    JoinEnds(stack);
    var j := JoinSlash(stack);
    var pre := if absolute then "/" else "";
    var post := if trailing then "/" else "";
    assert r == pre + j + post;
    assert IsAbsolute(r) == absolute by {
      if !absolute { assert r[0] == j[0]; }
    }
    assert HasTrailingSlash(r) == trailing by {
      if !trailing { assert r[|r| - 1] == j[|j| - 1]; }
    }
    forall i | 0 <= i < |r| - 1 ensures !(r[i] == '/' && r[i + 1] == '/') {
      if i >= |pre| && i + 1 < |pre| + |j| {
        assert r[i] == j[i - |pre|] && r[i + 1] == j[i + 1 - |pre|];
      } else if i + 1 == |pre| {
        assert r[i + 1] == j[0];
      } else if i + 1 == |pre| + |j| {
        assert r[i] == j[|j| - 1];
      }
    }
  }

  /**
   * The result of `normalize` is never empty, is absolute exactly when
   * the input is, holds no "//", no "." segment (unless it is "." or
   * "./" itself), and no ".." segment when it is absolute.
   */
  lemma NormalizeShape(p: string)
    ensures var r := Normalize(p);
      && r != ""
      && (p == "" ==> r == ".")
      && (IsAbsolute(r) <==> IsAbsolute(p))
      && NoDoubleSlash(r)
      && (r != "." && r != "./" ==> forall i | 0 <= i < |Split(r)| :: Split(r)[i] != ".")
      && (IsAbsolute(r) ==> forall i | 0 <= i < |Split(r)| :: Split(r)[i] != "..")
  {
    var r := Normalize(p);
    if p == "" {
      assert r == ".";
      SplitNoSlash(".");
    } else {
      NormalizeStack(p);
      var stack, abs, tr := Stack(p), IsAbsolute(p), HasTrailingSlash(p);
      if stack == [] {
        if abs {
          assert r == "/";
          SplitConcat("", "");
          assert "" + "/" + "" == "/";
        } else if tr {
          assert r == "./";
        } else {
          assert r == ".";
        }
      } else {
        RenderSegments(stack, abs, tr);
      }
    }
  }

  /** The segments of a rendered non-empty canonical stack: no ".", and no ".." when absolute. */
  lemma RenderSegments(stack: seq<string>, absolute: bool, trailing: bool)
    requires |stack| >= 1 && Canonical(stack, absolute)
    ensures var r := Render(stack, absolute, trailing);
      && IsAbsolute(r) == absolute
      && NoDoubleSlash(r)
      && (forall i | 0 <= i < |Split(r)| :: Split(r)[i] != ".")
      && (absolute ==> forall i | 0 <= i < |Split(r)| :: Split(r)[i] != "..")
  {
    RenderFacts(stack, absolute, trailing);
    var sp := Split(Render(stack, absolute, trailing));
    var pre: seq<string> := if absolute then [""] else [];
    forall i | 0 <= i < |sp| ensures sp[i] != "." && (absolute ==> sp[i] != "..") {
      if sp[i] != "" {
        assert sp[i] == stack[i - |pre|];
      }
    }
  }

  /** `normalize` takes no character from nowhere: besides the input's, only '/' and '.'. */
  lemma NormalizeChars(p: string, c: char)
    requires c !in p && c != '/' && c != '.'
    ensures c !in Normalize(p)
  {
    if p != "" {
      SplitAvoids(p, c);
      FoldAvoids([], Split(p), IsAbsolute(p), c);
      var stack := Stack(p);
      if stack != [] {
        JoinAvoids(stack, c);
        var j := JoinSlash(stack);
        var pre := if IsAbsolute(p) then "/" else "";
        var post := if HasTrailingSlash(p) then "/" else "";
        assert Normalize(p) == pre + j + post;
      }
    }
  }

  /** No segment of `segs` holds the character `c`. */
  predicate Avoids(segs: seq<string>, c: char)
  {
    forall i | 0 <= i < |segs| :: c !in segs[i]
  }

  lemma {:induction false} SplitAvoids(s: string, c: char)
    requires c !in s
    ensures Avoids(Split(s), c)
  {
    if s != [] {
      assert c !in s[1..] by {
        forall x | x in s[1..] ensures x != c { assert x in s; }
      }
      SplitAvoids(s[1..], c);
      var rest := Split(s[1..]);
      if s[0] != '/' {
        assert c !in [s[0]] + rest[0];
        forall i | 1 <= i < |Split(s)| ensures c !in Split(s)[i] {
          assert Split(s)[i] == rest[i];
        }
      } else {
        forall i | 1 <= i < |Split(s)| ensures c !in Split(s)[i] {
          assert Split(s)[i] == rest[i - 1];
        }
      }
    }
  }

  lemma {:induction false} FoldAvoids(stack: seq<string>, segs: seq<string>, absolute: bool, c: char)
    requires c != '.'
    requires Avoids(stack, c) && Avoids(segs, c)
    ensures Avoids(Fold(stack, segs, absolute), c)
    decreases |segs|
  {
    if segs != [] {
      var next := Step(stack, segs[0], absolute);
      assert c !in "..";
      assert Avoids(next, c) by {
        forall i | 0 <= i < |next| ensures c !in next[i] {
          if i < |stack| { assert next[i] == stack[i]; }
        }
      }
      FoldAvoids(next, segs[1..], absolute, c);
    }
  }

  lemma {:induction false} JoinAvoids(segs: seq<string>, c: char)
    requires c != '/' && Avoids(segs, c)
    ensures c !in JoinSlash(segs)
  {
    if |segs| > 1 {
      JoinAvoids(segs[1..], c);
      assert c !in segs[0];
    } else if |segs| == 1 {
      assert c !in segs[0];
    }
  }

  /** A canonical stack, rendered, is what `normalize` finds again. */
  lemma StackOfRender(stack: seq<string>, absolute: bool, trailing: bool)
    requires |stack| >= 1 && Canonical(stack, absolute)
    ensures Stack(Render(stack, absolute, trailing)) == stack
  {
    var r := Render(stack, absolute, trailing);
    RenderFacts(stack, absolute, trailing);
    var preSegs: seq<string> := if absolute then [""] else [];
    var postSegs: seq<string> := if trailing then [""] else [];
    FoldAppend([], preSegs + stack, postSegs, absolute);
    FoldAppend([], preSegs, stack, absolute);
    assert Fold([], preSegs, absolute) == [];
    FoldCanonicalIdentity([], stack, absolute);
    assert [] + stack == stack;
    assert Fold(stack, postSegs, absolute) == stack;
  }

  /** Normalizing a normalized path changes nothing. */
  lemma NormalizeIdempotent(p: string)
    ensures Normalize(Normalize(p)) == Normalize(p)
  {
    var r := Normalize(p);
    if p == "" {
      assert r == ".";
      SplitNoSlash(".");
    } else {
      NormalizeStack(p);
      var stack, abs, tr := Stack(p), IsAbsolute(p), HasTrailingSlash(p);
      if stack == [] {
        if abs {
          assert r == "/";
          SplitConcat("", "");
          assert "" + "/" + "" == "/";
        } else if tr {
          assert r == "./";
          SplitConcat(".", "");
          assert "." + "/" + "" == "./";
          SplitNoSlash(".");
        } else {
          assert r == ".";
          SplitNoSlash(".");
        }
      } else {
        RenderFacts(stack, abs, tr);
        StackOfRender(stack, abs, tr);
      }
    }
  }

  // ---------------------------------------------------------------------
  // Absolute normalized paths under a prefix

  /**
   * Folding the segments of a normalized absolute path onto a canonical
   * absolute stack pushes exactly that path's names.
   */
  lemma FoldNormalizedAbsolute(acc: seq<string>, x: string)
    requires Canonical(acc, true) && IsAbsolute(x)
    ensures Split(Normalize(x))[0] == ""
    ensures Fold(acc, Split(Normalize(x))[1..], true) == acc + Stack(x)
  {
    NormalizeStack(x);
    var stack, tr := Stack(x), HasTrailingSlash(x);
    var n := Normalize(x);
    if stack == [] {
      assert n == "/";
      SplitConcat("", "");
      assert "" + "/" + "" == "/";
      assert Split(n) == ["", ""];
      assert Split(n)[1..] == [""];
      assert Fold(acc, [""], true) == Fold(acc, [], true);
    } else {
      FoldRendered(acc, stack, tr);
    }
  }

  lemma FoldRendered(acc: seq<string>, stack: seq<string>, trailing: bool)
    requires Canonical(acc, true) && Canonical(stack, true) && |stack| >= 1
    ensures Split(Render(stack, true, trailing))[0] == ""
    ensures Fold(acc, Split(Render(stack, true, trailing))[1..], true) == acc + stack
  {
    var post: seq<string> := if trailing then [""] else [];
    SplitRenderedAbsolute(stack, trailing);
    FoldNamesThenEmpty(acc, stack, post);
  }

  /** An absolute rendered stack splits into "", the stack, and "" when it ends in '/'. */
  lemma SplitRenderedAbsolute(stack: seq<string>, trailing: bool)
    requires Canonical(stack, true) && |stack| >= 1
    ensures var sp := Split(Render(stack, true, trailing));
      sp[0] == "" && sp[1..] == stack + (if trailing then [""] else [])
  {
    RenderSplit(stack, true, trailing);
    var post: seq<string> := if trailing then [""] else [];
    var sp := Split(Render(stack, true, trailing));
    assert sp == [""] + stack + post;
  }

  /** Folding names onto names pushes them all; trailing empty segments change nothing. */
  lemma FoldNamesThenEmpty(acc: seq<string>, stack: seq<string>, post: seq<string>)
    requires Canonical(acc, true) && Canonical(stack, true)
    requires forall i | 0 <= i < |post| :: post[i] == ""
    ensures Fold(acc, stack + post, true) == acc + stack
  {
    calc {
      Fold(acc, stack + post, true);
      { FoldAppend(acc, stack, post, true); }
      Fold(Fold(acc, stack, true), post, true);
      { CanonicalAppend(acc, stack); FoldCanonicalIdentity(acc, stack, true); }
      Fold(acc + stack, post, true);
      { FoldEmptySegments(acc + stack, post, true); }
      acc + stack;
    }
  }

  lemma FoldEmptySegments(acc: seq<string>, segs: seq<string>, absolute: bool)
    requires forall i | 0 <= i < |segs| :: segs[i] == ""
    ensures Fold(acc, segs, absolute) == acc
    decreases |segs|
  {
    if segs != [] {
      FoldEmptySegments(acc, segs[1..], absolute);
    }
  }

  /** Appending a normalized absolute path to any prefix walks below the prefix. */
  lemma WalkUnder(prefix: string, x: string)
    requires IsAbsolute(x)
    ensures Walk(prefix + Normalize(x)) == Walk(prefix) + Stack(x)
  {
    var n := Normalize(x);
    NormalizeShape(x);
    var rest := n[1..];
    assert n == "" + "/" + rest;
    assert prefix + n == prefix + "/" + rest;
    SplitConcat("", rest);
    SplitConcat(prefix, rest);
    assert Split(rest) == Split(n)[1..];
    FoldAppend([], Split(prefix), Split(rest), true);
    FoldCanonical([], Split(prefix), true);
    FoldNormalizedAbsolute(Walk(prefix), x);
  }

  /** Joining a normalized absolute path onto an absolute directory stacks one on the other. */
  lemma StackJoinAbsolute(dir: string, x: string)
    requires IsAbsolute(dir) && IsAbsolute(x)
    ensures Stack(dir + "/" + Normalize(x)) == Stack(dir) + Stack(x)
  {
    var n := Normalize(x);
    SplitConcat(dir, n);
    FoldAppend([], Split(dir), Split(n), true);
    FoldCanonical([], Split(dir), true);
    FoldNormalizedAbsolute(Stack(dir), x);
    assert Split(n) == [""] + Split(n)[1..];
    FoldAppend(Stack(dir), [""], Split(n)[1..], true);
  }

  /** A name written after an absolute path is pushed onto its stack. */
  lemma StackAppendName(d: string, n: string)
    requires IsAbsolute(d) && IsName(n)
    ensures Stack(d + "/" + n) == Stack(d) + [n]
  {
    SplitConcat(d, n);
    SplitNoSlash(n);
    FoldAppend([], Split(d), [n], true);
  }

  /** A "." written after an absolute path changes nothing. */
  lemma StackAppendDot(d: string)
    requires IsAbsolute(d)
    ensures Stack(d + "/" + ".") == Stack(d)
  {
    SplitConcat(d, ".");
    SplitNoSlash(".");
    FoldAppend([], Split(d), ["."], true);
  }
}

=== FILE: storage.dfy ===
/**
 * The storage backend the jailed file system hands its resolved paths to
 * (Node's `fs` module over the host file system), as an abstract map.
 *
 * A node is found by the chain of directory names the operating system
 * walks for a path (`PosixPath.Walk`), so "//srv/a" and "/srv/a" reach
 * the same node. A directory keeps the names `readdir` reports, in the
 * order it reports them; nothing forces that listing to agree with the
 * map, which is how a name can be listed and then fail to stat.
 */
module Storage {

  type Key = seq<string>

  datatype Node =
    | File(data: seq<bv8>, mode: nat)
    | Dir(entries: seq<string>, mode: nat)

  /** The error kinds the jailed file system reports. */
  datatype Error =
    | NotFound              // ENOENT: no such file or directory
    | NotADirectory         // ENOTDIR, and `chdir` onto something that is not a directory
    | CannotReadDirectory   // `read` of a directory
    | StorageError          // any other failure of the backend, passed through

  datatype Result<T> = Ok(value: T) | Err(error: Error)

  /** What `stat` reports. The size of a directory is not modelled and reads 0. */
  datatype Stat = Stat(isDirectory: bool, size: nat, mode: nat)

  type Store = map<Key, Node>

  /** Permission bits of a new file (0o666) and a new directory (0o777). */
  const FileMode: nat := 438
  const DirMode: nat := 511

  function StatOf(n: Node): (st: Stat)
    ensures st.isDirectory <==> n.Dir?
    ensures st.mode == n.mode
    ensures n.File? ==> st.size == |n.data|
  {
    match n
    case File(data, mode) => Stat(false, |data|, mode)
    case Dir(_, mode) => Stat(true, 0, mode)
  }

  /** `fs.stat`. */
  function StatAt(s: Store, k: Key): (r: Result<Stat>)
    ensures r.Ok? <==> k in s
    ensures r.Ok? ==> r.value == StatOf(s[k])
    ensures r.Err? ==> r.error == NotFound
  {
    if k in s then Ok(StatOf(s[k])) else Err(NotFound)
  }

  /** `fs.readdir`: the directory's listing, in its order. */
  function ReadDir(s: Store, k: Key): (r: Result<seq<string>>)
    ensures r.Ok? <==> k in s && s[k].Dir?
    ensures r.Ok? ==> r.value == s[k].entries
    ensures r.Err? ==> r.error == (if k in s then NotADirectory else NotFound)
  {
    if k !in s then Err(NotFound)
    else if !s[k].Dir? then Err(NotADirectory)
    else Ok(s[k].entries)
  }

  /** The directory that holds `k`; the top is its own parent. */
  function Parent(k: Key): (r: Key)
    ensures k != [] ==> |r| == |k| - 1 && r <= k
  {
    if k == [] then [] else k[..|k| - 1]
  }

  /** The last name of `k`; the top has none. */
  function BaseName(k: Key): (r: string)
    ensures k != [] ==> r == k[|k| - 1]
  {
    if k == [] then "" else k[|k| - 1]
  }

  /** `entries` without any occurrence of `name`, the others in their order. */
  function Without(entries: seq<string>, name: string): (r: seq<string>)
    ensures name !in r
    ensures forall x | x in r :: x in entries
    ensures forall x | x in entries && x != name :: x in r
  {
    if entries == [] then []
    else if entries[0] == name then Without(entries[1..], name)
    else [entries[0]] + Without(entries[1..], name)
  }

  /** Directory `d` listing `name`: unchanged if it already does, otherwise with `name` at the end. */
  function WithEntry(d: Node, name: string): (r: Node)
    requires d.Dir?
    ensures r.Dir? && r.mode == d.mode
    ensures name in r.entries
    ensures forall x | x in d.entries :: x in r.entries
    ensures forall x | x in r.entries :: x in d.entries || x == name
  {
    if name in d.entries then d else d.(entries := d.entries + [name])
  }

  /** Directory `d` with `name` no longer listed; any other node as it is. */
  function DropEntry(d: Node, name: string): (r: Node)
    ensures r.Dir? == d.Dir? && r.mode == d.mode
    ensures d.Dir? ==> name !in r.entries && forall x | x in d.entries && x != name :: x in r.entries
    ensures d.File? ==> r == d
  {
    if d.Dir? then d.(entries := Without(d.entries, name)) else d
  }

  /** Records `k`'s name in its parent's listing (at the end), if the parent is a directory. */
  function Attach(s: Store, k: Key): (r: Store)
    ensures r.Keys == s.Keys
    ensures forall q | q in s && q != Parent(k) :: r[q] == s[q]
    ensures k != [] && Parent(k) in s && s[Parent(k)].Dir? ==>
      r[Parent(k)] == WithEntry(s[Parent(k)], BaseName(k))
    ensures Parent(k) in s && !(k != [] && s[Parent(k)].Dir?) ==> r[Parent(k)] == s[Parent(k)]
  {
    var p := Parent(k);
    if k != [] && p in s && s[p].Dir?
    then s[p := WithEntry(s[p], BaseName(k))]
    else s
  }

  /** Drops `k`'s name from its parent's listing, if the parent is a directory. */
  function Detach(s: Store, k: Key): (r: Store)
    ensures r.Keys == s.Keys
    ensures forall q | q in s && q != Parent(k) :: r[q] == s[q]
    ensures k != [] && Parent(k) in s ==> r[Parent(k)] == DropEntry(s[Parent(k)], BaseName(k))
  {
    var p := Parent(k);
    if k != [] && p in s
    then s[p := DropEntry(s[p], BaseName(k))]
    else s
  }

  /** `k` can be created: it is not the top, and its parent is a directory. */
  function CreateCheck(s: Store, k: Key): (r: Result<()>)
    ensures r.Ok? <==> k != [] && Parent(k) in s && s[Parent(k)].Dir?
  {
    if k == [] then Err(StorageError)
    else if Parent(k) !in s then Err(NotFound)
    else if !s[Parent(k)].Dir? then Err(NotADirectory)
    else Ok(())
  }

  /** `fs.mkdir`: fails if the entry exists or its parent is not a directory. */
  function MakeDir(s: Store, k: Key): (r: Result<Store>)
    ensures r.Ok? <==> k !in s && k != [] && Parent(k) in s && s[Parent(k)].Dir?
    ensures k in s ==> r == Err(StorageError)
    ensures r.Ok? ==> r.value.Keys == s.Keys + {k}
    ensures r.Ok? ==> r.value[k] == Dir([], DirMode)
    ensures r.Ok? ==> r.value[Parent(k)] == WithEntry(s[Parent(k)], BaseName(k))
    ensures r.Ok? ==> forall q | q in s && q != Parent(k) :: r.value[q] == s[q]
  {
    if k in s then Err(StorageError)
    else match CreateCheck(s, k)
      case Err(e) => Err(e)
      case Ok(_) => Ok(Attach(s[k := Dir([], DirMode)], k))
  }

  /** `fs.rmdir`: only an empty directory, and never the top. */
  function RemoveDir(s: Store, k: Key): (r: Result<Store>)
    ensures r.Ok? <==> k in s && s[k].Dir? && s[k].entries == [] && k != []
    ensures k !in s ==> r == Err(NotFound)
    ensures r.Ok? ==> r.value.Keys == s.Keys - {k}
    ensures r.Ok? ==> forall q | q in s && q != k && q != Parent(k) :: r.value[q] == s[q]
    ensures r.Ok? && Parent(k) in s ==> r.value[Parent(k)] == DropEntry(s[Parent(k)], BaseName(k))
  {
    if k !in s then Err(NotFound)
    else if !s[k].Dir? then Err(NotADirectory)
    else if s[k].entries != [] || k == [] then Err(StorageError)
    else Ok(Detach(s - {k}, k))
  }

  /** `fs.unlink`: anything but a directory. */
  function Unlink(s: Store, k: Key): (r: Result<Store>)
    ensures r.Ok? <==> k in s && s[k].File? && k != []
    ensures k !in s ==> r == Err(NotFound)
    ensures r.Ok? ==> r.value.Keys == s.Keys - {k}
    ensures r.Ok? ==> forall q | q in s && q != k && q != Parent(k) :: r.value[q] == s[q]
    ensures r.Ok? && Parent(k) in s ==> r.value[Parent(k)] == DropEntry(s[Parent(k)], BaseName(k))
  {
    if k !in s then Err(NotFound)
    else if s[k].Dir? || k == [] then Err(StorageError)
    else Ok(Detach(s - {k}, k))
  }

  /** `fs.chmod`: new permission bits, nothing else changes. */
  function Chmod(s: Store, k: Key, mode: nat): (r: Result<Store>)
    ensures r.Ok? <==> k in s
    ensures r.Err? ==> r.error == NotFound
    ensures r.Ok? ==> r.value.Keys == s.Keys
    ensures r.Ok? ==> r.value[k].mode == mode && r.value[k].File? == s[k].File?
    ensures r.Ok? && s[k].File? ==> r.value[k].data == s[k].data
    ensures r.Ok? && s[k].Dir? ==> r.value[k].entries == s[k].entries
    ensures r.Ok? ==> forall q | q in s && q != k :: r.value[q] == s[q]
  {
    if k !in s then Err(NotFound) else Ok(s[k := s[k].(mode := mode)])
  }

  /**
   * Opening a write stream: flag 'w+' (`append` false) truncates or
   * creates, flag 'a+' (`append` true) appends or creates; `data` is
   * everything later written to the stream. Opening a directory fails.
   * `refused` stands for the operating system's own refusals that the
   * map does not capture (no write permission, no free descriptor):
   * an open that would otherwise succeed then fails.
   */
  function OpenWrite(s: Store, k: Key, append: bool, data: seq<bv8>, refused: bool): (r: Result<Store>)
    ensures r.Ok? <==> !refused && ((k in s && s[k].File?) || (k !in s && k != [] && Parent(k) in s && s[Parent(k)].Dir?))
    ensures r.Ok? ==> r.value.Keys == s.Keys + {k}
    ensures r.Ok? ==> r.value[k].File?
    ensures r.Ok? ==> r.value[k].data == if append && k in s then s[k].data + data else data
    ensures r.Ok? ==> r.value[k].mode == if k in s then s[k].mode else FileMode
    ensures r.Ok? && k !in s ==> r.value[Parent(k)] == WithEntry(s[Parent(k)], BaseName(k))
    ensures r.Ok? && k in s ==> forall q | q in s && q != k :: r.value[q] == s[q]
    ensures r.Ok? && k !in s ==> forall q | q in s && q != Parent(k) :: r.value[q] == s[q]
  {
    if k in s then
      match s[k]
      case Dir(_, _) => Err(StorageError)
      case File(existing, mode) =>
        if refused then Err(StorageError)
        else Ok(s[k := File(if append then existing + data else data, mode)])
    else match CreateCheck(s, k)
      case Err(e) => Err(e)
      case Ok(_) =>
        if refused then Err(StorageError)
        else Ok(Attach(s[k := File(data, FileMode)], k))
  }

  /** Every node of the subtree at `f` re-keyed under `t`; the old subtree at `t` is gone. */
  function Move(s: Store, f: Key, t: Key): (r: Store)
    requires !(f <= t) && !(t <= f)
    ensures forall q | q in s && f <= q :: t + q[|f|..] in r && r[t + q[|f|..]] == s[q]
    ensures forall q | q in s && !(f <= q) && !(t <= q) :: q in r && r[q] == s[q]
    ensures forall q | q in r :: t <= q || (q in s && !(f <= q))
  {
    var kept := map q | q in s && !(f <= q) && !(t <= q) :: s[q];
    RetargetInjective(s, f, t);
    var moved := map q | q in s && f <= q :: t + q[|f|..] := s[q];
    assert forall q | q in s && f <= q :: t <= t + q[|f|..];
    kept + moved
  }

  lemma RetargetInjective(s: Store, f: Key, t: Key)
    ensures forall q1, q2 | q1 in s && q2 in s && f <= q1 && f <= q2 && t + q1[|f|..] == t + q2[|f|..] :: q1 == q2
  {
    forall q1, q2 | q1 in s && q2 in s && f <= q1 && f <= q2 && t + q1[|f|..] == t + q2[|f|..]
      ensures q1 == q2
    {
      assert q1[|f|..] == (t + q1[|f|..])[|t|..];
      assert q2[|f|..] == (t + q2[|f|..])[|t|..];
      assert q1 == f + q1[|f|..];
      assert q2 == f + q2[|f|..];
    }
  }

  /**
   * `fs.rename`: the entry at `f` (a whole subtree for a directory) now
   * lives at `t`. A file may replace a file and a directory an empty
   * directory; a path cannot move into its own subtree or onto its
   * own ancestor.
   */
  function Rename(s: Store, f: Key, t: Key): (r: Result<Store>)
    ensures f !in s ==> r == Err(NotFound)
    ensures f in s && f == t ==> r == Ok(s)
    ensures r.Ok? ==> f in s
    ensures r.Ok? <==> (f in s && (f == t || (RenameAllowed(s, f, t) && (t in s ==> ReplaceAllowed(s[f], s[t])))))
    ensures r.Ok? && f != t ==> t in r.value && r.value[t] == s[f] && f !in r.value
    ensures r.Ok? && f != t ==> forall q | q in s && f <= q && q != f :: t + q[|f|..] in r.value && r.value[t + q[|f|..]] == s[q]
    ensures r.Ok? && f != t ==> forall q | q in s && !(f <= q) && !(t <= q) && q != Parent(f) && q != Parent(t) :: q in r.value && r.value[q] == s[q]
    ensures r.Ok? && f != t ==> forall q | q in r.value :: t <= q || (q in s && !(f <= q))
    ensures r.Ok? && f != t ==> Parent(t) in r.value && r.value[Parent(t)].Dir? && BaseName(t) in r.value[Parent(t)].entries
    ensures r.Ok? && f != t && Parent(f) != Parent(t) && Parent(f) in s ==>
      Parent(f) in r.value && r.value[Parent(f)] == DropEntry(s[Parent(f)], BaseName(f))
    ensures r.Ok? && f != t && Parent(f) != Parent(t) ==>
      r.value[Parent(t)] == WithEntry(s[Parent(t)], BaseName(t))
    ensures r.Ok? && f != t && Parent(f) == Parent(t) ==>
      r.value[Parent(t)] == WithEntry(DropEntry(s[Parent(t)], BaseName(f)), BaseName(t))
  {
    if f !in s then Err(NotFound)
    else if f == t then Ok(s)
    else if f <= t || t <= f then Err(StorageError)
    else match CreateCheck(s, t)
      case Err(e) => Err(e)
      case Ok(_) =>
        if t in s && !ReplaceAllowed(s[f], s[t]) then
          Err(if s[f].Dir? && s[t].File? then NotADirectory else StorageError)
        else
          var moved := Move(s, f, t);
          assert t == t + f[|f|..];
          assert Parent(f) != t && !(t <= Parent(f)) && Parent(t) != t;
          Ok(Attach(Detach(moved, f), t))
  }

  /** Neither path contains the other, and the target can be created. */
  predicate RenameAllowed(s: Store, f: Key, t: Key)
  {
    !(f <= t) && !(t <= f) && t != [] && Parent(t) in s && s[Parent(t)].Dir?
  }

  /** What may stand at the target of a rename: a file over a file, a directory over an empty one. */
  predicate ReplaceAllowed(from: Node, to: Node)
  {
    (from.File? && to.File?) || (from.Dir? && to.Dir? && to.entries == [])
  }
}
